=== FILE: README.md ===
# MQTT record/replay engine in Dafny

This project models the record/replay engine of a small MQTT tool.

- **Recorder** (`subscriber.py`): stamps every message that arrives on the bus with its arrival time and buffers it. It appends the buffer to the log file as one JSON object per line once the buffer holds 1000 records, and once more on stop. It logs progress every 10000 messages.
- **Player** (`publisher.py`): chooses a recording in this order: an explicit file, else the most recently modified `mqtt_record_*.json`, else the configured path. It reads the recording line by line, skipping blank and undecodable lines. It republishes each record after sleeping for the gap to the previous timestamp, capped at 60 seconds. It stops between records when asked to.

The model is written in pure functions over immutable data:

| file | module | what it holds |
|---|---|---|
| `wrappers.dfy` | `Wrappers` | `Option`, `Result`, and `Values`, which drops the `None`s |
| `text.dfy` | `Text` | Python's `str.strip`, the splitting of file text into lines, `str.split`, and decimal numerals |
| `log_format.dfy` | `LogFormat` | the record, the encoding of one log line with `json.dumps`'s layout and string escapes, the line parser, and the text of a flush |
| `recorder.dfy` | `Recorder` | the recorder's state, `_on_message`, `_flush_buffer`, `stop`, and whole sessions |
| `player.dfy` | `Player` | `_read_messages` and `_publish_messages` |
| `sorting.dfy` | `Sorting` | a stable sort by a numeric key, like Python's `list.sort` |
| `selection.dfy` | `Selection` | `_get_latest_recording`, the choice of source in `__init__`, the `--file` override, and `list_available_recordings` |
| `end_to_end.dfy` | `EndToEnd` | what the recorder writes is what the player reads back |

Modelling choices:

- **Time.** Timestamps are whole microseconds (`nat`), not float seconds. The 60-second cap is `MaxSleep`, which is 60 × 10^6.
- **File contents.** The recorder's file is the sequence of records it has appended so far. Its text is `LogText(prior, s)`: whatever the file held before the session, followed by one encoded line per record.
- **Effects as inputs.**
  - The clock reading is `Arrival.arrivedAt`.
  - Whether a write succeeds is `Arrival.writeSucceeds`, or the `writeSucceeds` argument of `Flush` and `Stop`.
  - The stop flag as seen before each record is `stopRequested`.
  - The return code of each `client.publish`, or the exception it raises, is `outcomes`. That code only says whether the client accepted the message for sending; at the default QoS 0 the broker acknowledges nothing.
  - The file system is a map from path to text, or a set of existing paths.
  - `glob` together with `getmtime` becomes a list of `Recording`s.
- **Line format.** A line is parsed only if it has exactly the shape the recorder writes. Such a line is
  - `{"topic": "…", "payload": "…", "timestamp": N}`,
  - with strings escaped as `json.dumps` escapes them by default (`ensure_ascii`): `\"`, `\\`, `\b`, `\f`, `\n`, `\r` and `\t`, then `\uXXXX` with lower-case hex digits for every other character outside printable ASCII, and a UTF-16 surrogate pair of two such escapes for a character above U+FFFF,
  - and with `N` a canonical decimal numeral.

  Every other non-blank line counts as undecodable and is skipped.

## Model

| member | source | states |
|---|---|---|
| Recorder.OnMessage | subscriber.py:106-124 | Handling a message extends file-then-buffer by exactly that message's stamped record, and the count grows by one. A flush is attempted if and only if the buffer reaches 1000. Without a successful flush the record is only buffered and the file is untouched; with one the buffer is emptied. A progress report fires if and only if the new count is a multiple of 10000. |
| Recorder.Flush | subscriber.py:136-150 | Flushing never loses or reorders a record (file then buffer is unchanged) and does not change the count. An empty buffer changes nothing. A failed write keeps the whole buffer and leaves the file as it was. A successful write empties the buffer. |
| Recorder.FlushAppendsLines | subscriber.py:141-147 | A successful flush appends to the log text exactly one encoded line per buffered record, in buffer order, each followed by a newline. |
| Recorder.Stop | subscriber.py:174-179 | Stop's final flush moves every buffered record to the end of the file when the write succeeds, and changes nothing when it fails. The count is untouched. |
| Recorder.Run | subscriber.py:106-120 | Over any sequence of arrivals, file-then-buffer grows by exactly the arrivals' records in arrival order, whatever the flushes do, and the count grows by the number of arrivals. |
| Recorder.SessionConservation | subscriber.py:115-120 | From a fresh recorder, file-then-buffer is every record received, in order, and the count equals the number of records held. |
| Recorder.FlushAtThreshold | subscriber.py:115-120 | A message that finds 999 records buffered triggers the flush, and a successful write moves all 1000 records, that message's last, to the file. A message that finds 998 records buffered triggers no flush and leaves 999 buffered. |
| Recorder.StopIdempotent | subscriber.py:136-139 | Once a stop has written the buffer, another stop changes nothing, whether its write would succeed or not, because the buffer is empty. |
| Recorder.BufferStaysBelowThreshold | subscriber.py:118-120 | While writes succeed, the buffer never holds 1000 records after a message has been handled. |
| Recorder.StopLosesNothing | subscriber.py:174-179 | A session followed by a successful stop leaves nothing buffered and the file holding every received record in arrival order. |
| Recorder.ReportsCount | subscriber.py:122-124 | A run logs one progress report per multiple of 10000 that the message count passes. |
| LogFormat.ParseEncoded | subscriber.py:144 | Parsing a line the recorder wrote gives back its record: topic, payload and timestamp intact. |
| LogFormat.ParseLineCanonical | publisher.py:157-159 | A line parses only if it is exactly the encoding of the record it parses to, so parsing and encoding are inverses. |
| LogFormat.EncodeLineInjective | subscriber.py:144 | Distinct records are written as distinct lines. |
| LogFormat.EncodedLineShape | subscriber.py:144 | A written line holds no line break and is not blank, and `strip` leaves it unchanged. This is what lets the player's line splitting and stripping recover it. |
| LogFormat.SerializeAppend | subscriber.py:143-144 | Writing two batches one after the other produces the same text as writing their concatenation. |
| LogFormat.LinesOfSerialized | subscriber.py:143-144 | The text of a batch splits into exactly one line per record, in order, followed by the empty piece after the last newline. The text ends with a line break unless it is empty. |
| LogFormat.EscapeChar | subscriber.py:144 | A character is written as itself if and only if it is printable ASCII other than the quote and the backslash. No escape holds a line break or starts with a quote. |
| LogFormat.ReadCharEscaped | publisher.py:158 | Every character's escape reads back as that character and takes up exactly the escape's length. This holds for two-character escapes, `\uXXXX` escapes and surrogate pairs alike, whatever follows. |
| LogFormat.ParseStringCanonical | publisher.py:158 | The string-literal reader accepts only an escaped body and its closing quote, exactly as the encoder writes them. |
| LogFormat.ParseEscaped | subscriber.py:144 | An escaped string literal followed by its closing quote parses back to the original string and leaves the rest of the text untouched. |
| Text.StripEmptyIffBlank | publisher.py:153-155 | A stripped line is empty if and only if every character of it is whitespace. |
| Text.SplitAround | publisher.py:91 | Splitting text at a separator gives the fields of the text before it followed by the fields of the text after it. |
| Text.SplitFieldsFree | publisher.py:91 | No field of a split holds a separator, and there is exactly one field more than there are separators. |
| Text.JoinSplit | publisher.py:91 | Splitting at a separator and joining the fields with it gives back the text. |
| Text.SplitJoin | publisher.py:91 | Joining fields that contain no separator and splitting again gives back the fields. |
| Text.LinesAfterTerminated | publisher.py:151-152 | When the earlier text ends in a line break, the lines of earlier-then-later text are the earlier lines followed by the later ones. |
| Text.NumeralRoundTrip | subscriber.py:144 | The decimal numeral of a number reads back as that number. |
| Text.NumeralCanonical | publisher.py:158 | A digit string without leading zeros is the numeral of its value. |
| Player.ReadMessages | publisher.py:145-166 | Reading fails if and only if the file does not exist, with an error naming the path. Otherwise it yields the records of the file's lines. |
| Player.ReadLinesAppend | publisher.py:151-162 | Reading is line by line: the records of two runs of lines are the first run's records followed by the second's. |
| Player.ReadLineSkips | publisher.py:153-162 | A line contributes nothing if and only if it is blank or its stripped text does not parse. |
| Player.SkippedLineIsHarmless | publisher.py:153-162 | Inserting a blank or corrupt line anywhere does not change the records read. |
| Player.CorruptLineBetweenRecords | publisher.py:157-162 | A corrupt line between two recorded lines is skipped, and both records are still read, in order. |
| Player.ReadRecordsComeFromLines | publisher.py:157-159 | Every record read is the parse of some stripped line of the file. |
| Player.ReadSerialized | publisher.py:151-159 | The text of a flushed batch reads back as exactly that batch. |
| Player.ReadAppended | publisher.py:151-159 | Appending a flushed batch to a log whose text ends in a line break appends exactly that batch to what the log reads as. |
| Player.SleepBetween | publisher.py:213-217 | There is a sleep if and only if the timestamp moved forward. It is positive and never longer than 60 seconds. It is the gap itself when the gap is within the cap, and the cap when the gap is at or above it. |
| Player.PublishMessages | publisher.py:201-242 | The replay emits a prefix of the records and stops exactly at the first record that finds the stop flag set. Each emission carries its record's topic and payload, and the sleep before it is taken from the previous record's timestamp. The first record has no sleep. Every sleep lies in (0, 60 s]. The sleeps add up to the total sleep of the records reached. The result counts exactly the publishes the client reported as successful. |
| Player.TotalSleepMatchesRecording | publisher.py:213-217 | When timestamps never decrease and no gap exceeds the cap, the replay sleeps exactly as long as the recording spanned. |
| Player.SleptIsTotalSleep | publisher.py:209-236 | The sleeps of a replay that emitted the first n records, stopped early or not, add up to the total sleep of those n records. So the bounds on total sleep also hold for a stopped replay. |
| Player.TotalSleepBounded | publisher.py:217 | A replay of n records sleeps at most 60 seconds times (n - 1) in total. |
| Player.SleepExamples | publisher.py:213-217 | Timestamps 0, 2, 2 and 7 s give sleeps of none, 2 s, none and 5 s. A 300 s gap sleeps 60 s, and a backwards step does not sleep. |
| Selection.LatestIndex | publisher.py:75-78 | The chosen file has no newer file, and every file listed before it is strictly older. Ties go to the first listed, as with a stable newest-first sort. |
| Selection.LatestRecording | publisher.py:69-85 | With recordings present, the result is the name of a latest one in the sense above. With none, it is the configured path. |
| Selection.InitialSource | publisher.py:31-35 | A non-empty storage file argument is used as given. Otherwise the source is the latest recording, or the configured path when there is none. |
| Selection.ReplaySource | publisher.py:283-287 | The command line fails if and only if a non-empty `--file` names a file that does not exist, and the error names that file. A `--file` that exists is used. Without one, the source is the one the publisher chose on construction. |
| Selection.ListAvailable | publisher.py:87-92 | The listing is the same files (a permutation) ordered by the number in their names. Files with equal numbers keep their original relative order. |
| Selection.SequenceTextOfRecordName | publisher.py:91 | For `mqtt_record_<digits>.json`, the text the sort key reads is exactly `<digits>`. |
| Sorting.SortBy | publisher.py:91 | The result is sorted by the key, is a permutation of the input, and keeps the input order among elements with equal keys. |
| Sorting.InsertPermutes | publisher.py:91 | Inserting into a sorted run adds exactly the inserted element: the result is a permutation of the run plus that element. |
| Sorting.InsertStable | publisher.py:91 | Inserting an element after all elements whose key is not greater puts it last among the elements with its key and leaves the other keys' elements alone. |
| EndToEnd.FileThenBufferIsEverything | subscriber.py:115-147 | At any point of a session, the records the log file reads as, followed by the buffer, are the file's earlier records followed by every message received, in order. |
| EndToEnd.RecordThenReplay | publisher.py:145-159 | Recording, stopping with a successful write, then reading the file yields the file's earlier records followed by one record per message received, in order. |
| EndToEnd.FreshRecordingRoundTrip | publisher.py:145-159 | A session recorded into a fresh file replays exactly its messages, each with its topic, payload and arrival time. |

## Left out

- **MQTT transport.** The paho client, connecting, subscribing, TLS, and the connect, disconnect and publish callbacks are transport work. Publishing appears only as a given outcome per record (`PublishOutcome`).
- **Process setup.** Configuration loading, logging set-up, signal handlers, `start`, and the `sys.exit` calls are left out. Those calls come on connection errors (subscriber.py:172) and at the end of `stop` (subscriber.py:187). The signal handlers are what set the stop flag; the flag appears as the `stopRequested` input.
- **Clock and sleeping.** `time.time()` becomes the `arrivedAt` input, and `time.sleep` becomes the `sleep` field of each emission.
- **Timestamps as integers.** Timestamps are whole microseconds rather than float seconds. Float rounding and the `repr` of floats are not modelled.
- **Payload decoding.** Bytes are decoded as UTF-8 with undecodable bytes dropped, and that decoding is not modelled. A `Message` arrives with its payload already as text.
- **LogFormat.ParseLine:** it accepts only the lines the encoder writes. `json.loads` would accept any valid JSON: other spacing or key order, upper-case hex digits, `\/`, a character written raw where the encoder escapes it, a float timestamp. Such lines are treated as undecodable here.
- **LogFormat.EncodeLine:** the timestamp is written as an integer count of microseconds, where the source writes the `repr` of a float number of seconds. The string escapes follow `json.dumps` with `ensure_ascii`.
- **Non-record JSON lines.** Valid JSON on a line that is not a record is not modelled; such lines are skipped like undecodable ones. The source behaves differently, depending on which field is missing.
  - An object without `topic` or `payload` raises `KeyError` at publisher.py:222-223, inside the inner `try`. It is caught at publisher.py:233 after the sleep (publisher.py:215-217), and its timestamp is still taken at publisher.py:236, so the replay goes on.
  - An object without `timestamp` raises `KeyError` at publisher.py:215 or 236, outside the inner `try`. The outer handler re-raises it (publisher.py:240-242), and the replay stops.
  - JSON that is not an object raises `TypeError` at those same places, with the same outcomes.
- **Recorder.Stop:** when the final write fails, the model keeps the buffer, as `_flush_buffer` does. But `stop` ends the process right after that flush (subscriber.py:182-187), so in the source those buffered records are lost. `Recorder.StopIdempotent`'s second stop can happen only when a second signal arrives while the first `stop` is still running. A signal that arrives while `_flush_buffer` is writing (subscriber.py:142-147) runs `stop`'s flush on a buffer not yet cleared, so the lines already written are written a second time. `Recorder.StopLosesNothing` covers only a stop between messages.
- **Player.ReadMessages:** the file's text is given already decoded, and a line the model cannot parse is always skipped. The source skips only lines on which `json.loads` raises `json.JSONDecodeError`, the one exception its inner handler catches (publisher.py:160). Three other failures abort the replay instead:
  - invalid UTF-8 bytes make the line iterator raise `UnicodeDecodeError`, because the file is opened as strict UTF-8 (publisher.py:151);
  - deep nesting, such as a few thousand `[`, makes `json.loads` raise `RecursionError`;
  - on Python 3.11 and later, an integer of more than 4300 digits makes `json.loads` raise `ValueError`.

  Each is re-raised at publisher.py:164-166 and 240-242 and ends the process at publisher.py:195-197. So "fails if and only if the file does not exist" holds only for files free of such lines.
- **Player.ReadLineSkips:** "contributes nothing if and only if it does not parse" matches the source only for lines `json.loads` rejects with `JSONDecodeError`; the aborting lines are described under `Player.ReadMessages` above.
- **Player.SkippedLineIsHarmless:** a line that makes `json.loads` raise `RecursionError` or `ValueError`, or that is not valid UTF-8, is not harmless in the source; it aborts the replay (see `Player.ReadMessages` above).
- **Player.CorruptLineBetweenRecords:** for such an aborting line between r1 and r2 the source publishes r1 and then stops, so r2 is never read (see `Player.ReadMessages` above).
- **Partial writes.** A flush that fails partway through writing leaves some lines in the file while the source keeps the whole buffer. The model treats each flush as all-or-nothing.
- **Player progress.** The player's progress message every 1000 publishes is a log line only and is left out. `PublishMessages` returns the count it reports.
- **Listing output.** The `--list` printing, including file sizes and times, is left out. So are the `glob` pattern match itself and the reading of modification times, which are inputs.
- **Selection.ListAvailable:** it requires every name's sequence segment to be plain ASCII digits. Python's `int()` also accepts a sign, surrounding whitespace and non-ASCII decimal digits, so `mqtt_record_+7.json` sorts by 7; such names are not modelled. For a name `int()` rejects, or one with too few `_`-separated parts, the source raises `ValueError` or `IndexError`, and that failure is not modelled either.
- **Selection.ReplaySource:** the source constructs the publisher before looking at `--file`. So the constructor's choice, including the fallback to the configured path, is made even when `--file` overrides it. The model computes the same value, but not the constructor's side effects.
- **File naming.** The recorder always appends to the configured `storage.file_path` (subscriber.py:28). It does not pick a fresh `mqtt_record_<n>.json` name for each session, and the model follows the code.
- **Stripping and line breaks.** `Strip` uses the whitespace set of Python's `str.isspace`, and `Lines` splits on `\n` and `\r`. Python's universal newlines would also treat `\r\n` as a single break. That gives the same records here, because the extra empty piece is blank and skipped.
- **EndToEnd.RecordThenReplay:** it requires the earlier file contents to be empty or to end in a line break. Otherwise the first new line would be glued to the last old one.

=== FILE: end_to_end.dfy ===
/** The storage contract between recorder and player: what the recorder
    leaves in the log file is what the player reads back. */
module EndToEnd {
  import opened Wrappers
  import opened Text
  import opened LogFormat
  import opened Recorder
  import opened Player

  /** At any point of a session, the records the log file reads as, followed
      by the buffer, are the records the file held before and then every
      message received, in arrival order. */
  lemma FileThenBufferIsEverything(prior: string, arrivals: seq<Arrival>)
    requires LineComplete(prior)
    ensures var r := Run(Initial, arrivals);
      ReadLog(LogText(prior, r)) + r.buffer == ReadLog(prior) + Stamps(arrivals)
  {
    var r := Run(Initial, arrivals);
    SessionConservation(arrivals);
    ReadAppended(prior, r.file);
    AppendAssoc(ReadLog(prior), r.file, r.buffer);
  }

  /** Round trip: recording messages, stopping (the final flush succeeds) and
      then replaying the file yields the records it held before followed by
      one record per message, in order, with topic, payload and timestamp
      intact. */
  lemma RecordThenReplay(prior: string, arrivals: seq<Arrival>, files: map<string, string>, path: string)
    requires LineComplete(prior)
    ensures var r := Stop(Run(Initial, arrivals), true);
      ReadMessages(files[path := LogText(prior, r)], path) == Success(ReadLog(prior) + Stamps(arrivals))
  {
    StopLosesNothing(arrivals);
    ReadAppended(prior, Stamps(arrivals));
  }

  /** A session recorded into a fresh file replays exactly its messages. */
  lemma FreshRecordingRoundTrip(arrivals: seq<Arrival>, files: map<string, string>, path: string)
    ensures var r := Stop(Run(Initial, arrivals), true);
      && ReadMessages(files[path := LogText([], r)], path) == Success(Stamps(arrivals))
      && |ReadLog(LogText([], r))| == |arrivals|
      && forall i :: 0 <= i < |arrivals| ==>
           ReadLog(LogText([], r))[i] == Record(arrivals[i].message.topic, arrivals[i].message.payload, arrivals[i].arrivedAt)
  {
    RecordThenReplay([], arrivals, files, path);
    assert Lines([]) == [[]];
    ReadEmptyLine();
    assert ReadLog([]) + Stamps(arrivals) == Stamps(arrivals);
  }
}

=== FILE: log_format.dfy ===
/** The record format shared by the recorder and the player: one JSON object
    per line, `{"topic": ..., "payload": ..., "timestamp": ...}`, with the
    separators `", "` and `": "` and the string escapes `json.dumps` uses by
    default (`ensure_ascii`: every character outside printable ASCII is
    written as an escape).  The timestamp is written as an integer count of
    microseconds rather than as a float.  The parser accepts exactly the
    lines the encoder can produce; any other line is unparseable. */
module LogFormat {
  import opened Wrappers
  import opened Text

  /** One observed bus message: its topic, its payload decoded to text, and
      its arrival time in whole microseconds since the epoch. */
  datatype Record = Record(topic: string, payload: string, timestamp: nat)

  /** A character `json.dumps` writes as itself under `ensure_ascii`:
      printable ASCII other than the quote and the backslash. */
  predicate IsPlain(c: char) {
    ' ' <= c <= '~' && c != '"' && c != '\\'
  }

  /** The letter of the two-character escape `\e` for `c`, when `c` has one. */
  function ShortEscape(c: char): Option<char> {
    match c
    case '"' => Some('"')
    case '\\' => Some('\\')
    case '\U{0008}' => Some('b')
    case '\U{000C}' => Some('f')
    case '\n' => Some('n')
    case '\r' => Some('r')
    case '\t' => Some('t')
    case _ => None
  }

  /** The character a two-character escape `\e` stands for, if `e` is one the encoder emits. */
  function UnescapeChar(e: char): (c: Option<char>)
    ensures c.Some? <==> e in {'"', '\\', 'b', 'f', 'n', 'r', 't'}
    ensures c.Some? ==> ShortEscape(c.value) == Some(e)
  {
    match e
    case '"' => Some('"')
    case '\\' => Some('\\')
    case 'b' => Some('\U{0008}')
    case 'f' => Some('\U{000C}')
    case 'n' => Some('\n')
    case 'r' => Some('\r')
    case 't' => Some('\t')
    case _ => None
  }

  /** The lower-case hexadecimal digit for `d`. */
  function HexDigit(d: nat): (h: char)
    requires d < 16
    ensures h !in LineBreaks
  {
    if d < 10 then ('0' as int + d) as char else ('a' as int + d - 10) as char
  }

  /** The value of a lower-case hexadecimal digit. */
  function HexValue(h: char): (d: Option<nat>)
    ensures d.Some? ==> d.value < 16
  {
    if '0' <= h <= '9' then Some(h as int - '0' as int)
    else if 'a' <= h <= 'f' then Some(h as int - 'a' as int + 10)
    else None
  }

  /** The four lower-case hexadecimal digits of a 16-bit code unit. */
  function Hex4(n: nat): (h: string)
    requires n < 0x1_0000
    ensures |h| == 4 && NoneIn(h, LineBreaks)
  {
    [HexDigit(n / 0x1000), HexDigit(n / 0x100 % 0x10), HexDigit(n / 0x10 % 0x10), HexDigit(n % 0x10)]
  }

  /** The escape `\uXXXX` of one UTF-16 code unit. */
  function UnitEscape(n: nat): (e: string)
    requires n < 0x1_0000
    ensures |e| == 6 && NoneIn(e, LineBreaks)
  {
    ['\\', 'u'] + Hex4(n)
  }

  /** The escape of one character inside a string literal, as `json.dumps`
      writes it with `ensure_ascii`: a two-character escape where there is
      one, plain ASCII as itself, any other character below U+10000 as
      `\uXXXX`, and a character above as the `\uXXXX\uXXXX` of its UTF-16
      surrogate pair. */
  function EscapeChar(c: char): (e: string)
    ensures |e| >= 1 && NoneIn(e, LineBreaks) && e[0] != '"'
    ensures |e| == 1 <==> IsPlain(c)
    ensures IsPlain(c) <==> e == [c]
  {
    if ShortEscape(c).Some? then ['\\', ShortEscape(c).value]
    else if IsPlain(c) then [c]
    else if c as int < 0x1_0000 then UnitEscape(c as int)
    else
      var v := c as int - 0x1_0000;
      UnitEscape(0xD800 + v / 0x400) + UnitEscape(0xDC00 + v % 0x400)
  }

  /** The body of a JSON string literal holding `s` (without its quotes). */
  function Escape(s: string): (e: string)
    ensures NoneIn(e, LineBreaks)
    decreases |s|
  {
    if |s| == 0 then [] else EscapeChar(s[0]) + Escape(s[1..])
  }

  /** The value of four hexadecimal digits, or None when one is not a digit. */
  function HexQuad(h: string): (n: Option<nat>)
    requires |h| == 4
    ensures n.Some? ==> n.value < 0x1_0000
  {
    match (HexValue(h[0]), HexValue(h[1]), HexValue(h[2]), HexValue(h[3]))
    case (Some(a), Some(b), Some(c), Some(d)) => Some(a * 0x1000 + b * 0x100 + c * 0x10 + d)
    case _ => None
  }

  /** The code unit of a `\uXXXX` escape at the start of `s`, if there is one. */
  function UnitAt(s: string): (n: Option<nat>)
    ensures n.Some? ==> |s| >= 6 && n.value < 0x1_0000
  {
    if |s| >= 6 && s[0] == '\\' && s[1] == 'u' then HexQuad(s[2..6]) else None
  }

  /** Decodes one character of a string literal body that does not start
      with the closing quote, as `json.loads` reads it: the character and
      how many characters of `s` it occupies, or None when it is malformed.
      A high surrogate must be followed by the escape of a low one. */
  function DecodeChar(s: string): (r: Option<(char, nat)>)
    requires |s| > 0 && s[0] != '"'
    ensures r.Some? ==> 1 <= r.value.1 <= |s|
  {
    if s[0] != '\\' then Some((s[0], 1))
    else if |s| < 2 then None
    else if s[1] != 'u' then
      match UnescapeChar(s[1])
      case None => None
      case Some(c) => Some((c, 2))
    else match UnitAt(s)
      case None => None
      case Some(hi) =>
        if 0xD800 <= hi < 0xDC00 then
          match UnitAt(s[6..])
          case None => None
          case Some(lo) =>
            if 0xDC00 <= lo < 0xE000 then
              Some(((0x1_0000 + (hi - 0xD800) * 0x400 + (lo - 0xDC00)) as char, 12))
            else None
        else if 0xDC00 <= hi < 0xE000 then None
        else Some((hi as char, 6))
  }

  /** Reads one character of a string literal body that does not start with
      the closing quote, accepting it only in the form the encoder writes:
      the character and how many characters of `s` it occupies, or None. */
  function ReadChar(s: string): (r: Option<(char, nat)>)
    requires |s| > 0 && s[0] != '"'
    ensures r.Some? ==> 1 <= r.value.1 <= |s|
  {
    match DecodeChar(s)
    case None => None
    case Some((c, k)) => if s[..k] == EscapeChar(c) then Some((c, k)) else None
  }

  /** A character read occupies exactly its escape. */
  lemma ReadCharCanonical(s: string)
    requires |s| > 0 && s[0] != '"' && ReadChar(s).Some?
    ensures s[..ReadChar(s).value.1] == EscapeChar(ReadChar(s).value.0)
  {
  }

  /** A hexadecimal digit reads back as the value it was written from. */
  lemma HexValueOfDigit(d: nat)
    requires d < 16
    ensures HexValue(HexDigit(d)) == Some(d)
  {
  }

  /** A 16-bit number is the sum of its four hexadecimal digits' places. */
  lemma HexPlaces(n: nat)
    requires n < 0x1_0000
    ensures n / 0x1000 * 0x1000 + n / 0x100 % 0x10 * 0x100 + n / 0x10 % 0x10 * 0x10 + n % 0x10 == n
  {
    assert n / 0x100 == n / 0x1000 * 0x10 + n / 0x100 % 0x10;
    assert n / 0x10 == n / 0x100 * 0x10 + n / 0x10 % 0x10;
    assert n == n / 0x10 * 0x10 + n % 0x10;
  }

  /** Four hexadecimal digits read back as the code unit they were written from. */
  lemma HexQuadOfHex4(n: nat)
    requires n < 0x1_0000
    ensures HexQuad(Hex4(n)) == Some(n)
  {
    HexValueOfDigit(n / 0x1000);
    HexValueOfDigit(n / 0x100 % 0x10);
    HexValueOfDigit(n / 0x10 % 0x10);
    HexValueOfDigit(n % 0x10);
    HexPlaces(n);
  }

  /** A `\uXXXX` escape reads back as its code unit, whatever follows it. */
  lemma UnitAtEscape(n: nat, rest: string)
    requires n < 0x1_0000
    ensures UnitAt(UnitEscape(n) + rest) == Some(n)
  {
    var s := UnitEscape(n) + rest;
    assert s[2..6] == Hex4(n);
    HexQuadOfHex4(n);
  }

  /** A `\uXXXX` escape of a character below U+10000 decodes as that character. */
  lemma DecodeUnitEscape(c: char, rest: string)
    requires c as int < 0x1_0000
    ensures var e := UnitEscape(c as int) + rest;
      e[0] != '"' && DecodeChar(e) == Some((c, 6))
  {
    UnitAtEscape(c as int, rest);
  }

  /** The surrogate-pair escape of a character above U+FFFF decodes as that character. */
  lemma DecodeSurrogatePair(c: char, rest: string)
    requires c as int >= 0x1_0000
    ensures var v := c as int - 0x1_0000;
      var e := UnitEscape(0xD800 + v / 0x400) + UnitEscape(0xDC00 + v % 0x400) + rest;
      e[0] != '"' && DecodeChar(e) == Some((c, 12))
  {
    var v := c as int - 0x1_0000;
    var hi, lo := 0xD800 + v / 0x400, 0xDC00 + v % 0x400;
    var e := UnitEscape(hi) + UnitEscape(lo) + rest;
    assert e == UnitEscape(hi) + (UnitEscape(lo) + rest);
    UnitAtEscape(hi, UnitEscape(lo) + rest);
    assert e[6..] == UnitEscape(lo) + rest;
    UnitAtEscape(lo, rest);
    assert 0x1_0000 + (hi - 0xD800) * 0x400 + (lo - 0xDC00) == c as int;
  }

  /** The escape of a character decodes as that character. */
  lemma DecodeEscaped(c: char, rest: string)
    ensures var e := EscapeChar(c) + rest;
      e[0] != '"' && DecodeChar(e) == Some((c, |EscapeChar(c)|))
  {
    if ShortEscape(c).Some? {
    } else if IsPlain(c) {
    } else if c as int < 0x1_0000 {
      DecodeUnitEscape(c, rest);
    } else {
      DecodeSurrogatePair(c, rest);
    }
  }

  /** The escape of a character reads back as that character. */
  lemma ReadCharEscaped(c: char, rest: string)
    ensures var e := EscapeChar(c) + rest;
      e[0] != '"' && ReadChar(e) == Some((c, |EscapeChar(c)|))
  {
    var e := EscapeChar(c) + rest;
    DecodeEscaped(c, rest);
    assert e[..|EscapeChar(c)|] == EscapeChar(c);
  }

  /** Reads a string literal body up to its closing quote; returns the decoded
      text and what follows the quote, or None when the literal is malformed. */
  function ParseString(s: string): Option<(string, string)>
    decreases |s|
  {
    if |s| == 0 then None
    else if s[0] == '"' then Some(([], s[1..]))
    else match ReadChar(s)
      case None => None
      case Some((c, k)) =>
        match ParseString(s[k..])
        case None => None
        case Some((t, rest)) => Some(([c] + t, rest))
  }

  /** Escaping text that starts with `c`. */
  lemma EscapeCons(c: char, t: string)
    ensures Escape([c] + t) == EscapeChar(c) + Escape(t)
  {
    assert ([c] + t)[1..] == t;
  }

  /** Every text survives escaping, whatever follows the closing quote. */
  lemma {:induction false} ParseEscaped(s: string, rest: string)
    ensures ParseString(Escape(s) + ['"'] + rest) == Some((s, rest))
    decreases |s|
  {
    var e := Escape(s) + ['"'] + rest;
    if |s| == 0 {
      assert e == ['"'] + rest;
    } else {
      var tail := Escape(s[1..]) + ['"'] + rest;
      assert s == [s[0]] + s[1..];
      EscapeCons(s[0], s[1..]);
      assert e == EscapeChar(s[0]) + tail;
      ReadCharEscaped(s[0], tail);
      assert e[|EscapeChar(s[0])|..] == tail;
      ParseEscaped(s[1..], rest);
    }
  }

  /** Parsing a literal body reads its first character, then the rest. */
  lemma ParseStringStep(s: string)
    requires |s| > 0 && s[0] != '"' && ReadChar(s).Some?
    requires ParseString(s[ReadChar(s).value.1..]).Some?
    ensures var (c, k) := ReadChar(s).value;
      var (t, rest) := ParseString(s[k..]).value;
      ParseString(s) == Some(([c] + t, rest))
  {
  }

  /** A character's escape followed by the escape of the rest of a text. */
  lemma GlueEscaped(s: string, c: char, k: nat, t: string, rest: string)
    requires k <= |s| && s[..k] == EscapeChar(c) && s[k..] == Escape(t) + ['"'] + rest
    ensures s == Escape([c] + t) + ['"'] + rest
  {
    EscapeCons(c, t);
    calc {
      s;
      s[..k] + s[k..];
      EscapeChar(c) + (Escape(t) + ['"'] + rest);
      { AppendAssoc(EscapeChar(c), Escape(t), ['"'] + rest); }
      (EscapeChar(c) + Escape(t)) + ['"'] + rest;
    }
  }

  /** The string-literal parser only accepts what the escaper produces. */
  lemma {:induction false} ParseStringCanonical(s: string)
    requires ParseString(s).Some?
    ensures s == Escape(ParseString(s).value.0) + ['"'] + ParseString(s).value.1
    decreases |s|
  {
    if s[0] != '"' {
      var (c, k) := ReadChar(s).value;
      ReadCharCanonical(s);
      var (t, rest) := ParseString(s[k..]).value;
      ParseStringStep(s);
      ParseStringCanonical(s[k..]);
      GlueEscaped(s, c, k, t, rest);
    }
  }

  const TopicKey: string := "{\"topic\": \""
  const PayloadKey: string := ", \"payload\": \""
  const TimestampKey: string := ", \"timestamp\": "

  /** The text of a string field: its key, then the escaped value and its closing quote. */
  function FieldText(key: string, value: string): string {
    key + Escape(value) + ['"']
  }

  /** The text of the final, numeric field and the closing brace. */
  function TimestampText(t: nat): string {
    TimestampKey + Numeral(t) + "}"
  }

  /** The log line of a record, without its terminating newline. */
  function EncodeLine(r: Record): string {
    FieldText(TopicKey, r.topic) + (FieldText(PayloadKey, r.payload) + TimestampText(r.timestamp))
  }

  /** Reads `key` followed by a string literal; returns the literal's text and what follows it. */
  function ParseField(s: string, key: string): Option<(string, string)> {
    if |s| < |key| || s[..|key|] != key then None else ParseString(s[|key|..])
  }

  /** Reads the numeric timestamp field and the closing brace that must end the line. */
  function ParseTimestamp(s: string): Option<nat> {
    if |s| < |TimestampKey| + 1 || s[..|TimestampKey|] != TimestampKey || s[|s| - 1] != '}' then None
    else
      var digits := s[|TimestampKey|..|s| - 1];
      if IsCanonicalNumeral(digits) then Some(NumeralValue(digits)) else None
  }

  /** Parses one stripped log line back into a record. */
  function ParseLine(line: string): Option<Record> {
    match ParseField(line, TopicKey)
    case None => None
    case Some((topic, rest)) =>
      match ParseField(rest, PayloadKey)
      case None => None
      case Some((payload, tail)) =>
        match ParseTimestamp(tail)
        case None => None
        case Some(t) => Some(Record(topic, payload, t))
  }

  /** A string field is read back as its value, whatever follows it. */
  lemma ParseFieldText(key: string, value: string, rest: string)
    ensures ParseField(FieldText(key, value) + rest, key) == Some((value, rest))
  {
    var s := FieldText(key, value) + rest;
    assert s[..|key|] == key;
    assert s[|key|..] == Escape(value) + ['"'] + rest;
    ParseEscaped(value, rest);
  }

  /** A string field is accepted only in the form the encoder writes it. */
  lemma ParseFieldCanonical(s: string, key: string)
    requires ParseField(s, key).Some?
    ensures s == FieldText(key, ParseField(s, key).value.0) + ParseField(s, key).value.1
  {
    var (value, rest) := ParseField(s, key).value;
    ParseStringCanonical(s[|key|..]);
    calc {
      s;
      s[..|key|] + s[|key|..];
      key + ((Escape(value) + ['"']) + rest);
      { AppendAssoc(key, Escape(value) + ['"'], rest); }
      (key + (Escape(value) + ['"'])) + rest;
      { AppendAssoc(key, Escape(value), ['"']); }
      FieldText(key, value) + rest;
    }
  }

  /** The timestamp field is read back as the number written. */
  lemma ParseTimestampText(t: nat)
    ensures ParseTimestamp(TimestampText(t)) == Some(t)
  {
    var s := TimestampText(t);
    assert s[|TimestampKey|..|s| - 1] == Numeral(t);
    NumeralRoundTrip(t);
  }

  /** The timestamp field is accepted only in the form the encoder writes it. */
  lemma ParseTimestampCanonical(s: string)
    requires ParseTimestamp(s).Some?
    ensures s == TimestampText(ParseTimestamp(s).value)
  {
    var digits := s[|TimestampKey|..|s| - 1];
    NumeralCanonical(digits);
    assert s == s[..|TimestampKey|] + digits + [s[|s| - 1]];
  }

  /** An encoded line holds no line break. */
  lemma EncodedLineUnbroken(r: Record)
    ensures NoneIn(EncodeLine(r), LineBreaks)
  {
    assert NoneIn(TopicKey, LineBreaks) && NoneIn(PayloadKey, LineBreaks) && NoneIn(TimestampKey, LineBreaks);
    NoneInConcat(TopicKey, Escape(r.topic), LineBreaks);
    NoneInConcat(TopicKey + Escape(r.topic), ['"'], LineBreaks);
    NoneInConcat(PayloadKey, Escape(r.payload), LineBreaks);
    NoneInConcat(PayloadKey + Escape(r.payload), ['"'], LineBreaks);
    NoneInConcat(TimestampKey, Numeral(r.timestamp), LineBreaks);
    NoneInConcat(TimestampKey + Numeral(r.timestamp), "}", LineBreaks);
    NoneInConcat(FieldText(PayloadKey, r.payload), TimestampText(r.timestamp), LineBreaks);
    NoneInConcat(FieldText(TopicKey, r.topic), FieldText(PayloadKey, r.payload) + TimestampText(r.timestamp), LineBreaks);
  }

  /** An encoded line starts with an opening and ends with a closing brace. */
  lemma EncodedLineBraces(r: Record)
    ensures var l := EncodeLine(r); |l| > 0 && l[0] == '{' && l[|l| - 1] == '}'
  {
  }

  /** An encoded line is one non-blank line that stripping leaves intact. */
  lemma EncodedLineShape(r: Record)
    ensures NoneIn(EncodeLine(r), LineBreaks)
    ensures Strip(EncodeLine(r)) == EncodeLine(r)
    ensures !IsBlank(EncodeLine(r))
  {
    EncodedLineUnbroken(r);
    EncodedLineBraces(r);
    var l := EncodeLine(r);
    assert !IsSpace(l[0]);
    StripKeepsTrimmed(l);
  }

  /** Every record survives encoding and parsing. */
  lemma ParseEncoded(r: Record)
    ensures ParseLine(EncodeLine(r)) == Some(r)
  {
    var tail := TimestampText(r.timestamp);
    var rest := FieldText(PayloadKey, r.payload) + tail;
    ParseFieldText(TopicKey, r.topic, rest);
    ParseFieldText(PayloadKey, r.payload, tail);
    ParseTimestampText(r.timestamp);
  }

  /** A line parses only if it is the encoding of the record it parses to. */
  lemma ParseLineCanonical(line: string)
    requires ParseLine(line).Some?
    ensures line == EncodeLine(ParseLine(line).value)
  {
    ParseFieldCanonical(line, TopicKey);
    var rest := ParseField(line, TopicKey).value.1;
    ParseFieldCanonical(rest, PayloadKey);
    var tail := ParseField(rest, PayloadKey).value.1;
    ParseTimestampCanonical(tail);
  }

  /** Encoding is one-to-one: distinct records give distinct lines. */
  lemma EncodeLineInjective(r1: Record, r2: Record)
    requires EncodeLine(r1) == EncodeLine(r2)
    ensures r1 == r2
  {
    ParseEncoded(r1);
    ParseEncoded(r2);
  }

  /** The first line of a batch is its first record's. */
  lemma EncodeAllFirst(rs: seq<Record>)
    requires |rs| > 0
    ensures EncodeAll(rs) == [EncodeLine(rs[0])] + EncodeAll(rs[1..])
  {
  }

  /** Lines each followed by a newline, as a text file holds them. */
  function Terminated(lines: seq<string>): string
    decreases |lines|
  {
    if |lines| == 0 then [] else lines[0] + "\n" + Terminated(lines[1..])
  }

  /** The log lines of a batch of records, in batch order. */
  function EncodeAll(rs: seq<Record>): (lines: seq<string>)
    ensures |lines| == |rs|
  {
    seq(|rs|, i requires 0 <= i < |rs| => EncodeLine(rs[i]))
  }

  /** The text one flush appends: every record's line followed by a newline. */
  function Serialize(rs: seq<Record>): string {
    Terminated(EncodeAll(rs))
  }

  lemma {:induction false} TerminatedAppend(a: seq<string>, b: seq<string>)
    ensures Terminated(a + b) == Terminated(a) + Terminated(b)
    decreases |a|
  {
    if |a| == 0 {
      assert a + b == b;
    } else {
      TerminatedAppend(a[1..], b);
      assert (a + b)[1..] == a[1..] + b;
    }
  }

  /** Serializing two batches one after the other is serializing their concatenation. */
  lemma SerializeAppend(a: seq<Record>, b: seq<Record>)
    ensures Serialize(a + b) == Serialize(a) + Serialize(b)
  {
    assert EncodeAll(a + b) == EncodeAll(a) + EncodeAll(b);
    TerminatedAppend(EncodeAll(a), EncodeAll(b));
  }

  /** The lines of terminated text are the given lines, followed by the empty
      piece after the final newline. */
  lemma {:induction false} LinesOfTerminated(lines: seq<string>)
    requires forall i :: 0 <= i < |lines| ==> NoneIn(lines[i], LineBreaks)
    ensures Lines(Terminated(lines)) == lines + [[]]
    decreases |lines|
  {
    if |lines| > 0 {
      LinesOfTerminated(lines[1..]);
      SplitAtSeparator(lines[0], '\n', Terminated(lines[1..]), LineBreaks);
      assert [lines[0]] + (lines[1..] + [[]]) == lines + [[]];
    }
  }

  /** Serialized text holds one line per record, in order, and ends with a line
      break unless it is empty. */
  lemma LinesOfSerialized(rs: seq<Record>)
    ensures Lines(Serialize(rs)) == EncodeAll(rs) + [[]]
    ensures LineComplete(Serialize(rs))
  {
    forall i | 0 <= i < |rs| {
      EncodedLineShape(rs[i]);
    }
    LinesOfTerminated(EncodeAll(rs));
    TerminatedEnds(EncodeAll(rs));
  }

  lemma {:induction false} TerminatedEnds(lines: seq<string>)
    ensures var s := Terminated(lines); |s| == 0 || s[|s| - 1] == '\n'
    decreases |lines|
  {
    if |lines| > 0 {
      TerminatedEnds(lines[1..]);
    }
  }
}

=== FILE: player.dfy ===
/** The player of publisher.py: reads a recording line by line, skipping blank
    and unparseable lines, and replays the records in order, sleeping between
    them for the original gap capped at 60 seconds. */
module Player {
  import opened Wrappers
  import opened Text
  import opened LogFormat

  // ---- reading a recording ----

  /** What one line of the file contributes: the record it parses to after
      stripping, or nothing for a blank or unparseable line. */
  function ReadLine(line: string): Option<Record> {
    var t := Strip(line);
    if t == [] then None else ParseLine(t)
  }

  /** What each line contributes, line by line. */
  function ReadEach(lines: seq<string>): (opts: seq<Option<Record>>)
    ensures |opts| == |lines|
  {
    seq(|lines|, i requires 0 <= i < |lines| => ReadLine(lines[i]))
  }

  /** The records of the lines, in line order, skipping the lines that
      contribute nothing. */
  function ReadLines(lines: seq<string>): (rs: seq<Record>)
    ensures |rs| <= |lines|
  {
    Values(ReadEach(lines))
  }

  /** The records a recording's text holds. */
  function ReadLog(text: string): seq<Record> {
    ReadLines(Lines(text))
  }

  datatype ReadError = StorageNotFound(path: string)

  /** Reads the recording at `path` from a file system given as the text of
      each existing file; a missing file is an error, not an empty replay. */
  function ReadMessages(files: map<string, string>, path: string): (r: Result<seq<Record>, ReadError>)
    ensures r.Failure? <==> path !in files
    ensures r.Failure? ==> r.error == StorageNotFound(path)
    ensures r.Success? ==> r.value == ReadLog(files[path])
  {
    if path !in files then Failure(StorageNotFound(path)) else Success(ReadLog(files[path]))
  }

  /** Reading is line by line: the records of two runs of lines are those of
      the first followed by those of the second. */
  lemma ReadLinesAppend(a: seq<string>, b: seq<string>)
    ensures ReadLines(a + b) == ReadLines(a) + ReadLines(b)
  {
    var ea, eb := ReadEach(a), ReadEach(b);
    forall i | 0 <= i < |a + b| ensures ReadEach(a + b)[i] == (ea + eb)[i] {
      if i < |a| {
        assert (a + b)[i] == a[i];
      } else {
        assert (a + b)[i] == b[i - |a|];
      }
    }
    assert ReadEach(a + b) == ea + eb;
    ValuesAppend(ea, eb);
  }

  /** A line contributes nothing exactly when it is blank or its stripped text
      does not parse. */
  lemma ReadLineSkips(line: string)
    ensures ReadLine(line) == None <==> IsBlank(line) || ParseLine(Strip(line)) == None
  {
    StripEmptyIffBlank(line);
  }

  /** A blank or malformed line anywhere in the file is skipped without
      affecting the records around it. */
  lemma SkippedLineIsHarmless(before: seq<string>, bad: string, after: seq<string>)
    requires ReadLine(bad) == None
    ensures ReadLines(before + [bad] + after) == ReadLines(before + after)
  {
    ReadLinesAppend(before + [bad], after);
    ReadLinesAppend(before, [bad]);
    ReadLinesAppend(before, after);
    ReadOneLine(bad);
  }

  /** A file of one line reads as what that line contributes. */
  lemma ReadOneLine(line: string)
    ensures ReadLines([line]) == if ReadLine(line).Some? then [ReadLine(line).value] else []
  {
    assert ReadEach([line]) == [ReadLine(line)];
  }

  /** Every record read is what some line of the file parses to. */
  lemma ReadRecordsComeFromLines(lines: seq<string>, r: Record)
    requires r in ReadLines(lines)
    ensures exists i :: 0 <= i < |lines| && ReadLine(lines[i]) == Some(r)
  {
    ValuesPresent(ReadEach(lines), r);
  }

  /** An encoded line reads back as its record. */
  lemma ReadEncodedLine(r: Record)
    ensures ReadLines([EncodeLine(r)]) == [r]
  {
    EncodedLineShape(r);
    ParseEncoded(r);
    StripEmptyIffBlank(EncodeLine(r));
    ReadOneLine(EncodeLine(r));
  }

  /** The encoded lines of records read back as exactly those records. */
  lemma {:induction false} ReadEncodedLines(rs: seq<Record>)
    ensures ReadLines(EncodeAll(rs)) == rs
    decreases |rs|
  {
    if |rs| > 0 {
      ReadEncodedLines(rs[1..]);
      EncodeAllFirst(rs);
      ReadLinesAppend([EncodeLine(rs[0])], EncodeAll(rs[1..]));
      ReadEncodedLine(rs[0]);
      assert [rs[0]] + rs[1..] == rs;
    }
  }

  /** Serialized records read back as themselves. */
  lemma ReadSerialized(rs: seq<Record>)
    ensures ReadLog(Serialize(rs)) == rs
  {
    LinesOfSerialized(rs);
    ReadLinesAppend(EncodeAll(rs), [[]]);
    ReadEncodedLines(rs);
    ReadEmptyLine();
  }

  /** The empty piece after a final newline contributes nothing. */
  lemma ReadEmptyLine()
    ensures ReadLines([[]]) == []
  {
    assert ReadLine([]) == None;
    ReadOneLine([]);
  }

  /** Text appended to a log that is empty or ends with a line break is read
      independently of what precedes it. */
  lemma ReadAfterTerminated(prior: string, text: string)
    requires LineComplete(prior)
    ensures ReadLog(prior + text) == ReadLog(prior) + ReadLog(text)
  {
    LinesAfterTerminated(prior, text);
    var lp := Lines(prior);
    ReadDropsEmptyLast(lp[..|lp| - 1]);
    ReadLinesAppend(lp[..|lp| - 1], Lines(text));
  }

  /** An empty last line contributes nothing. */
  lemma ReadDropsEmptyLast(lines: seq<string>)
    ensures ReadLines(lines + [[]]) == ReadLines(lines)
  {
    ReadLinesAppend(lines, [[]]);
    ReadEmptyLine();
  }

  /** Appending serialized records to a log that is empty or ends with a line
      break adds exactly those records to what the log reads as. */
  lemma ReadAppended(prior: string, rs: seq<Record>)
    requires LineComplete(prior)
    ensures ReadLog(prior + Serialize(rs)) == ReadLog(prior) + rs
  {
    ReadAfterTerminated(prior, Serialize(rs));
    ReadSerialized(rs);
  }

  /** A malformed line between two valid records loses neither of them. */
  lemma CorruptLineBetweenRecords(r1: Record, bad: string, r2: Record)
    requires ReadLine(bad) == None
    ensures ReadLines([EncodeLine(r1), bad, EncodeLine(r2)]) == [r1, r2]
  {
    SkippedLineIsHarmless([EncodeLine(r1)], bad, [EncodeLine(r2)]);
    assert [EncodeLine(r1)] + [bad] + [EncodeLine(r2)] == [EncodeLine(r1), bad, EncodeLine(r2)];
    ReadLinesAppend([EncodeLine(r1)], [EncodeLine(r2)]);
    ReadEncodedLine(r1);
    ReadEncodedLine(r2);
  }

  // ---- replaying ----

  /** Microseconds per second: timestamps are whole microseconds. */
  const Second: nat := 1000000

  /** The longest sleep between two records (publisher.py:217). */
  const MaxSleep: nat := 60 * Second

  /** The sleep before a record stamped `t` that follows one stamped `prev`:
      the gap when positive, capped at `MaxSleep`; no sleep otherwise. */
  function SleepBetween(prev: int, t: int): (d: Option<int>)
    ensures d.Some? <==> t > prev
    ensures d.Some? ==> 0 < d.value <= MaxSleep
    ensures t - prev <= MaxSleep && d.Some? ==> d.value == t - prev
    ensures t - prev >= MaxSleep ==> d == Some(MaxSleep)
  {
    var gap := t - prev;
    if gap > 0 then Some(if gap < MaxSleep then gap else MaxSleep) else None
  }

  /** The sleep before the `i`th record of a replay: none before the first. */
  function SleepBefore(rs: seq<Record>, i: nat): Option<int>
    requires i < |rs|
  {
    if i == 0 then None else SleepBetween(rs[i - 1].timestamp, rs[i].timestamp)
  }

  /** What `client.publish` reports for one publish: its return code says
      the message was accepted for sending, or an error code (not connected,
      queue full), or the call raised an exception. */
  datatype PublishOutcome = Accepted | Refused | Raised

  /** One replayed record: the sleep taken before it, what was published, and
      how the publish went. */
  datatype Emission = Emission(sleep: Option<int>, topic: string, payload: string, outcome: PublishOutcome)

  /** The `i`th record as a replay that reaches it emits it. */
  function Replayed(rs: seq<Record>, outcomes: seq<PublishOutcome>, i: nat): Emission
    requires i < |rs| && i < |outcomes|
  {
    Emission(SleepBefore(rs, i), rs[i].topic, rs[i].payload, outcomes[i])
  }

  /** The number of publishes among `outcomes` that the client accepted. */
  function CountAccepted(outcomes: seq<PublishOutcome>): (n: nat)
    ensures n <= |outcomes|
    decreases |outcomes|
  {
    if |outcomes| == 0 then 0
    else CountAccepted(outcomes[..|outcomes| - 1]) + (if outcomes[|outcomes| - 1] == Accepted then 1 else 0)
  }

  /** Replays `rs`. `stopRequested[i]` is the stop flag as seen before the
      `i`th record and `outcomes[i]` the client's answer to its publish.
      Returns the replayed records and the number of publishes the client accepted. */
  method PublishMessages(rs: seq<Record>, stopRequested: seq<bool>, outcomes: seq<PublishOutcome>)
      returns (emitted: seq<Emission>, published: nat)
    requires |stopRequested| == |rs| && |outcomes| == |rs|
    ensures |emitted| <= |rs|
    ensures forall i :: 0 <= i < |emitted| ==> !stopRequested[i]
    ensures |emitted| < |rs| ==> stopRequested[|emitted|]
    ensures forall i :: 0 <= i < |emitted| ==> emitted[i] == Replayed(rs, outcomes, i)
    ensures forall i :: 0 <= i < |emitted| && emitted[i].sleep.Some? ==> 0 < emitted[i].sleep.value <= MaxSleep
    ensures |emitted| > 0 ==> emitted[0].sleep == None
    ensures published == CountAccepted(outcomes[..|emitted|])
    ensures published <= |emitted|
    ensures Slept(emitted) == TotalSleep(rs[..|emitted|])
  {
    emitted := [];
    published := 0;
    var previous: Option<nat> := None;
    var i := 0;
    while i < |rs|
      invariant 0 <= i <= |rs|
      invariant |emitted| == i
      invariant forall j :: 0 <= j < i ==> !stopRequested[j]
      invariant forall j :: 0 <= j < i ==> emitted[j] == Replayed(rs, outcomes, j)
      invariant previous == if i == 0 then None else Some(rs[i - 1].timestamp)
      invariant published == CountAccepted(outcomes[..i])
    {
      if stopRequested[i] {
        break;
      }
      var sleep := if previous.Some? then SleepBetween(previous.value, rs[i].timestamp) else None;
      var emission := Emission(sleep, rs[i].topic, rs[i].payload, outcomes[i]);
      assert emission == Replayed(rs, outcomes, i);
      emitted := emitted + [emission];
      if outcomes[i] == Accepted {
        published := published + 1;
      }
      assert outcomes[..i + 1][..i] == outcomes[..i];
      previous := Some(rs[i].timestamp);
      i := i + 1;
    }
    SleptIsTotalSleep(rs, outcomes, emitted);
  }

  /** The total time a replay of `rs` sleeps. */
  function TotalSleep(rs: seq<Record>): nat
    decreases |rs|
  {
    if |rs| < 2 then 0
    else
      var last := SleepBefore(rs, |rs| - 1);
      TotalSleep(rs[..|rs| - 1]) + (if last.Some? then last.value else 0)
  }

  /** The total time the emissions `es` slept before their publishes. */
  function Slept(es: seq<Emission>): int
    decreases |es|
  {
    if |es| == 0 then 0
    else
      var last := es[|es| - 1].sleep;
      Slept(es[..|es| - 1]) + (if last.Some? then last.value else 0)
  }

  /** A replay, stopped early or not, sleeps in total what the records it
      reached call for: the sum of the emitted sleeps is the total sleep of
      that prefix of the recording. */
  lemma {:induction false} SleptIsTotalSleep(rs: seq<Record>, outcomes: seq<PublishOutcome>, emitted: seq<Emission>)
    requires |emitted| <= |rs| && |outcomes| == |rs|
    requires forall i :: 0 <= i < |emitted| ==> emitted[i] == Replayed(rs, outcomes, i)
    ensures Slept(emitted) == TotalSleep(rs[..|emitted|])
    decreases |emitted|
  {
    var n := |emitted|;
    if n > 0 {
      var init := emitted[..n - 1];
      assert forall i :: 0 <= i < |init| ==> init[i] == emitted[i];
      SleptIsTotalSleep(rs, outcomes, init);
      assert rs[..n][..n - 1] == rs[..n - 1];
      assert SleepBefore(rs[..n], n - 1) == SleepBefore(rs, n - 1);
    }
  }

  /** Timestamps never decrease and no gap exceeds the cap. */
  predicate SteadyTimestamps(rs: seq<Record>) {
    forall i :: 0 < i < |rs| ==> rs[i - 1].timestamp <= rs[i].timestamp <= rs[i - 1].timestamp + MaxSleep
  }

  /** Timing fidelity: when timestamps never go back and no gap exceeds the
      cap, the replay sleeps exactly as long as the recording lasted. */
  lemma {:induction false} TotalSleepMatchesRecording(rs: seq<Record>)
    requires |rs| > 0 && SteadyTimestamps(rs)
    ensures TotalSleep(rs) == rs[|rs| - 1].timestamp - rs[0].timestamp
    decreases |rs|
  {
    if |rs| >= 2 {
      var init := rs[..|rs| - 1];
      assert SteadyTimestamps(init) by {
        forall i | 0 < i < |init| ensures init[i - 1].timestamp <= init[i].timestamp <= init[i - 1].timestamp + MaxSleep {
          assert init[i] == rs[i] && init[i - 1] == rs[i - 1];
        }
      }
      TotalSleepMatchesRecording(init);
      assert rs[|rs| - 2].timestamp <= rs[|rs| - 1].timestamp <= rs[|rs| - 2].timestamp + MaxSleep;
    }
  }

  /** Whatever the timestamps, a replay never sleeps longer than the cap per gap. */
  lemma {:induction false} TotalSleepBounded(rs: seq<Record>)
    ensures TotalSleep(rs) <= MaxSleep * (if |rs| == 0 then 0 else |rs| - 1)
    decreases |rs|
  {
    if |rs| >= 2 {
      TotalSleepBounded(rs[..|rs| - 1]);
    }
  }

  /** Timestamps 0, 2, 2 and 7 seconds replay as: no sleep, 2 s, no sleep, 5 s;
      a 300 s gap sleeps 60 s. */
  lemma SleepExamples()
    ensures SleepBetween(0, 2 * Second) == Some(2 * Second)
    ensures SleepBetween(2 * Second, 2 * Second) == None
    ensures SleepBetween(2 * Second, 7 * Second) == Some(5 * Second)
    ensures SleepBetween(0, 300 * Second) == Some(60 * Second)
    ensures SleepBetween(7 * Second, 3 * Second) == None
  {
  }
}

=== FILE: recorder.dfy ===
/** The recorder of subscriber.py: every message received from the bus is
    stamped with its arrival time and buffered; the buffer is appended to the
    log file once it holds `BufferSize` records, and a final time on stop. */
module Recorder {
  import opened LogFormat

  /** Records buffered before an automatic flush (subscriber.py:32). */
  const BufferSize: nat := 1000

  /** A progress report is logged each time this many messages have arrived. */
  const ProgressInterval: nat := 10000

  /** A message as the bus delivers it, its payload already decoded to text. */
  datatype Message = Message(topic: string, payload: string)

  /** The recorder's state: the records waiting to be written, the records
      appended to the log file so far (one line each, in order), and the
      number of messages received. */
  datatype RecorderState = RecorderState(buffer: seq<Record>, file: seq<Record>, count: nat)

  /** What handling one message produced: the new state, whether a flush was
      attempted, and whether a progress report was logged. */
  datatype Delivery = Delivery(state: RecorderState, flushAttempted: bool, progress: bool)

  /** One arrival: the message, the clock reading at arrival (microseconds), and
      whether a flush attempted while handling it would manage to write. */
  datatype Arrival = Arrival(message: Message, arrivedAt: nat, writeSucceeds: bool)

  /** The state of a fresh recorder: nothing buffered, written or counted. */
  const Initial: RecorderState := RecorderState([], [], 0)

  /** The text of the log file: whatever it held when the session began,
      followed by one line per record written since. */
  function LogText(prior: string, s: RecorderState): string {
    prior + Serialize(s.file)
  }

  /** The record kept for a message that arrived at time `now`. */
  function Stamp(m: Message, now: nat): Record {
    Record(m.topic, m.payload, now)
  }

  /** Writes the buffer to the log and clears it; an empty buffer is left
      alone, and a failed write keeps the buffer for the next attempt. */
  function Flush(s: RecorderState, writeSucceeds: bool): (r: RecorderState)
    ensures r.file + r.buffer == s.file + s.buffer
    ensures r.count == s.count
    ensures s.buffer == [] ==> r == s
    ensures !writeSucceeds ==> r == s
    ensures writeSucceeds ==> r.buffer == []
  {
    if |s.buffer| == 0 then s
    else if writeSucceeds then s.(file := s.file + s.buffer, buffer := [])
    else s
  }

  /** A flush that writes appends the buffered records to the log text, one
      line each and in buffer order. */
  lemma FlushAppendsLines(prior: string, s: RecorderState)
    ensures LogText(prior, Flush(s, true)) == LogText(prior, s) + Serialize(s.buffer)
  {
    SerializeAppend(s.file, s.buffer);
  }

  /** Handles one received message: buffers its record, counts it, flushes once
      the buffer has reached `BufferSize`, and reports progress every
      `ProgressInterval` messages. */
  function OnMessage(s: RecorderState, m: Message, now: nat, writeSucceeds: bool): (d: Delivery)
    ensures d.state.file + d.state.buffer == s.file + s.buffer + [Stamp(m, now)]
    ensures d.state.count == s.count + 1
    ensures d.flushAttempted <==> |s.buffer| + 1 >= BufferSize
    ensures !(d.flushAttempted && writeSucceeds) ==> d.state.buffer == s.buffer + [Stamp(m, now)] && d.state.file == s.file
    ensures d.flushAttempted && writeSucceeds ==> d.state.buffer == []
    ensures d.progress <==> d.state.count % ProgressInterval == 0
  {
    var buffered := s.(buffer := s.buffer + [Stamp(m, now)], count := s.count + 1);
    var flushing := |buffered.buffer| >= BufferSize;
    var next := if flushing then Flush(buffered, writeSucceeds) else buffered;
    Delivery(next, flushing, next.count % ProgressInterval == 0)
  }

  /** Stopping the recorder: a final flush (the disconnect is transport work). */
  function Stop(s: RecorderState, writeSucceeds: bool): (r: RecorderState)
    ensures writeSucceeds ==> r.buffer == [] && r.file == s.file + s.buffer
    ensures !writeSucceeds ==> r == s
    ensures r.count == s.count
  {
    Flush(s, writeSucceeds)
  }

  /** The records a sequence of arrivals produces, in arrival order. */
  function Stamps(arrivals: seq<Arrival>): (rs: seq<Record>)
    ensures |rs| == |arrivals|
  {
    seq(|arrivals|, i requires 0 <= i < |arrivals| => Stamp(arrivals[i].message, arrivals[i].arrivedAt))
  }

  /** Handles the arrivals one after another. */
  function Run(s: RecorderState, arrivals: seq<Arrival>): (r: RecorderState)
    ensures r.file + r.buffer == s.file + s.buffer + Stamps(arrivals)
    ensures r.count == s.count + |arrivals|
    decreases |arrivals|
  {
    if |arrivals| == 0 then s
    else
      var a := arrivals[0];
      var next := OnMessage(s, a.message, a.arrivedAt, a.writeSucceeds).state;
      assert Stamps(arrivals) == [Stamp(a.message, a.arrivedAt)] + Stamps(arrivals[1..]);
      Run(next, arrivals[1..])
  }

  /** Conservation over a session: the file followed by the buffer is every
      record received, in arrival order, and the count is their number. */
  lemma SessionConservation(arrivals: seq<Arrival>)
    ensures var r := Run(Initial, arrivals);
      && r.file + r.buffer == Stamps(arrivals)
      && r.count == |r.file| + |r.buffer|
  {
    assert Initial.file + Initial.buffer + Stamps(arrivals) == Stamps(arrivals);
  }

  /** Every arrival's flush would succeed. */
  predicate WritesSucceed(arrivals: seq<Arrival>) {
    forall i :: 0 <= i < |arrivals| ==> arrivals[i].writeSucceeds
  }

  /** While writes succeed the buffer never reaches `BufferSize`. */
  lemma {:induction false} BufferStaysBelowThreshold(s: RecorderState, arrivals: seq<Arrival>)
    requires |s.buffer| < BufferSize
    requires WritesSucceed(arrivals)
    ensures |Run(s, arrivals).buffer| < BufferSize
    decreases |arrivals|
  {
    if |arrivals| > 0 {
      var a := arrivals[0];
      var next := OnMessage(s, a.message, a.arrivedAt, a.writeSucceeds).state;
      assert a.writeSucceeds;
      BufferStaysBelowThreshold(next, arrivals[1..]);
    }
  }

  /** The flush fires exactly when the 1000th record is buffered: a message
      that finds 998 records buffered is only buffered, one that finds 999
      moves all 1000 records to the file. */
  lemma FlushAtThreshold(s: RecorderState, m: Message, now: nat)
    requires |s.buffer| == BufferSize - 1
    ensures OnMessage(s, m, now, true).flushAttempted
    ensures OnMessage(s, m, now, true).state.buffer == []
    ensures OnMessage(s, m, now, true).state.file == s.file + s.buffer + [Stamp(m, now)]
    ensures forall t: RecorderState :: |t.buffer| == BufferSize - 2 ==>
              !OnMessage(t, m, now, true).flushAttempted
              && |OnMessage(t, m, now, true).state.buffer| == BufferSize - 1
  {
  }

  /** A second stop, or a stop with nothing buffered, changes nothing. */
  lemma StopIdempotent(s: RecorderState, writeSucceeds: bool)
    ensures Stop(Stop(s, true), writeSucceeds) == Stop(s, true)
  {
  }

  /** Nothing is lost on stop: after a session of arrivals and a stop whose
      write succeeds, the file holds every record received, in order. */
  lemma StopLosesNothing(arrivals: seq<Arrival>)
    ensures var r := Stop(Run(Initial, arrivals), true);
      r.buffer == [] && r.file == Stamps(arrivals) && r.count == |arrivals|
  {
    SessionConservation(arrivals);
  }

  /** The number of progress reports a run logs. */
  function Reports(s: RecorderState, arrivals: seq<Arrival>): nat
    decreases |arrivals|
  {
    if |arrivals| == 0 then 0
    else
      var a := arrivals[0];
      var d := OnMessage(s, a.message, a.arrivedAt, a.writeSucceeds);
      (if d.progress then 1 else 0) + Reports(d.state, arrivals[1..])
  }

  /** Counting one more message passes a multiple of `ProgressInterval`
      exactly when the new count is one. */
  lemma NextCountPassesMultiple(c: nat)
    ensures (c + 1) / ProgressInterval - c / ProgressInterval == (if (c + 1) % ProgressInterval == 0 then 1 else 0)
  {
  }

  /** A run logs one report for each multiple of `ProgressInterval` the
      message count passes: from a fresh start, one per 10000 messages. */
  lemma {:induction false} ReportsCount(s: RecorderState, arrivals: seq<Arrival>)
    ensures Reports(s, arrivals) == (s.count + |arrivals|) / ProgressInterval - s.count / ProgressInterval
    decreases |arrivals|
  {
    if |arrivals| > 0 {
      var a := arrivals[0];
      var d := OnMessage(s, a.message, a.arrivedAt, a.writeSucceeds);
      ReportsCount(d.state, arrivals[1..]);
      NextCountPassesMultiple(s.count);
    }
  }
}

=== FILE: selection.dfy ===
/** How publisher.py chooses what to replay, and how it lists recordings:
    an explicit file wins; otherwise the most recently modified
    `mqtt_record_*.json` file; otherwise the configured storage path. */
module Selection {
  import opened Wrappers
  import opened Text
  import opened Sorting

  /** A file matching `mqtt_record_*.json` and its modification time. */
  datatype Recording = Recording(name: string, mtime: real)

  /** `files[i]` is what a stable newest-first sort puts in front: no file is
      newer, and every file listed before it is strictly older. */
  predicate IsLatest(files: seq<Recording>, i: int) {
    && 0 <= i < |files|
    && (forall j :: 0 <= j < |files| ==> files[j].mtime <= files[i].mtime)
    && (forall j :: 0 <= j < i ==> files[j].mtime < files[i].mtime)
  }

  /** The position of the newest file; ties go to the one listed first. */
  function LatestIndex(files: seq<Recording>): (i: nat)
    requires |files| > 0
    ensures IsLatest(files, i)
    decreases |files|
  {
    if |files| == 1 then 0
    else
      var k := 1 + LatestIndex(files[1..]);
      if files[0].mtime >= files[k].mtime then 0 else k
  }

  /** The latest recording, or the configured path when there is none. */
  function LatestRecording(files: seq<Recording>, configPath: string): (path: string)
    ensures |files| == 0 ==> path == configPath
    ensures |files| > 0 ==> exists i :: IsLatest(files, i) && path == files[i].name
  {
    if |files| == 0 then configPath else files[LatestIndex(files)].name
  }

  /** Python treats an empty string as no file at all. */
  predicate Given(file: Option<string>) {
    file.Some? && file.value != ""
  }

  /** The source the publisher is constructed with: the `storage_file`
      argument when one is given, otherwise the latest recording or the
      configured path. */
  function InitialSource(storageFile: Option<string>, files: seq<Recording>, configPath: string): (path: string)
    ensures Given(storageFile) ==> path == storageFile.value
    ensures !Given(storageFile) && |files| == 0 ==> path == configPath
    ensures !Given(storageFile) && |files| > 0 ==> exists i :: IsLatest(files, i) && path == files[i].name
  {
    if Given(storageFile) then storageFile.value else LatestRecording(files, configPath)
  }

  datatype SourceError = FileNotFound(path: string)

  /** The source the command line replays: the publisher is built without a
      storage file, then a `--file` argument replaces the choice, but only if
      that file exists. */
  function ReplaySource(cliFile: Option<string>, existing: set<string>, files: seq<Recording>, configPath: string): (r: Result<string, SourceError>)
    ensures r.Failure? <==> Given(cliFile) && cliFile.value !in existing
    ensures r.Failure? ==> r.error == FileNotFound(cliFile.value)
    ensures r.Success? && Given(cliFile) ==> r.value == cliFile.value && r.value in existing
    ensures r.Success? && !Given(cliFile) ==> r.value == InitialSource(None, files, configPath)
  {
    var chosen := InitialSource(None, files, configPath);
    if Given(cliFile) then
      if cliFile.value in existing then Success(cliFile.value) else Failure(FileNotFound(cliFile.value))
    else Success(chosen)
  }

  // ---- listing recordings ----

  /** The text `int()` is applied to when sorting: the third `_`-separated
      field of the name, up to its first `.`. */
  function SequenceText(name: string): string {
    var fields := Split(name, {'_'});
    if |fields| < 3 then [] else Split(fields[2], {'.'})[0]
  }

  /** The name has a third field whose text before the first `.` is a
      non-empty run of digits, so `int()` accepts it. */
  predicate HasSequenceNumber(name: string) {
    |Split(name, {'_'})| >= 3 && |SequenceText(name)| > 0 && AllDigits(SequenceText(name))
  }

  /** The number a recording's name carries (0 stands in for names `int()`
      would reject; `ListAvailable` admits no such name). */
  function SequenceNumber(name: string): nat {
    if HasSequenceNumber(name) then NumeralValue(SequenceText(name)) else 0
  }

  predicate AllNumbered(names: seq<string>) {
    forall i :: 0 <= i < |names| ==> HasSequenceNumber(names[i])
  }

  /** The recordings ordered by the number in their names, as
      `list_available_recordings` returns them. */
  function ListAvailable(names: seq<string>): (r: seq<string>)
    requires AllNumbered(names)
    ensures SortedBy(r, SequenceNumber)
    ensures multiset(r) == multiset(names)
    ensures StableFor(names, r, SequenceNumber)
  {
    SortBy(names, SequenceNumber)
  }

  /** A name of the form `mqtt_record_<n>.json` sorts by its `<n>`. */
  lemma SequenceTextOfRecordName(digits: string)
    requires |digits| > 0 && AllDigits(digits)
    ensures SequenceText("mqtt_record_" + digits + ".json") == digits
    ensures HasSequenceNumber("mqtt_record_" + digits + ".json")
  {
    var tail := digits + ".json";
    assert NoneIn(tail, {'_'});
    assert NoneIn(digits, {'.'});
    var name := "mqtt_record_" + digits + ".json";
    assert name == "mqtt" + ['_'] + ("record" + ['_'] + tail);
    SplitAtSeparator("mqtt", '_', "record" + ['_'] + tail, {'_'});
    SplitAtSeparator("record", '_', tail, {'_'});
    SplitNoSeparator(tail, {'_'});
    assert Split(name, {'_'}) == ["mqtt", "record", tail];
    assert tail == digits + ['.'] + "json";
    SplitAtSeparator(digits, '.', "json", {'.'});
  }
}

=== FILE: sorting.dfy ===
/** A stable sort by a numeric key, as Python's `list.sort(key=...)` performs it. */
module Sorting {
  import opened Wrappers

  /** Keys never decrease along `xs`. */
  predicate SortedBy<T>(xs: seq<T>, key: T -> nat) {
    forall i, j :: 0 <= i < j < |xs| ==> key(xs[i]) <= key(xs[j])
  }

  /** The elements of `xs` whose key is `k`, in their order in `xs`. */
  function WithKey<T>(xs: seq<T>, key: T -> nat, k: nat): (ys: seq<T>)
    ensures |ys| <= |xs|
    decreases |xs|
  {
    if |xs| == 0 then []
    else (if key(xs[0]) == k then [xs[0]] else []) + WithKey(xs[1..], key, k)
  }

  /** `ys` keeps the relative order that elements with equal keys had in `xs`. */
  ghost predicate StableFor<T>(xs: seq<T>, ys: seq<T>, key: T -> nat) {
    forall k :: WithKey(xs, key, k) == WithKey(ys, key, k)
  }

  lemma {:induction false} WithKeyAppend<T>(a: seq<T>, b: seq<T>, key: T -> nat, k: nat)
    ensures WithKey(a + b, key, k) == WithKey(a, key, k) + WithKey(b, key, k)
    decreases |a|
  {
    if |a| == 0 {
      assert a + b == b;
    } else {
      var head := if key(a[0]) == k then [a[0]] else [];
      assert (a + b)[1..] == a[1..] + b;
      assert WithKey(a + b, key, k) == head + WithKey(a[1..] + b, key, k);
      WithKeyAppend(a[1..], b, key, k);
      assert head + (WithKey(a[1..], key, k) + WithKey(b, key, k))
          == (head + WithKey(a[1..], key, k)) + WithKey(b, key, k);
    }
  }

  /** When every key in `xs` exceeds `k`, no element has key `k`. */
  lemma {:induction false} WithKeyAbsent<T>(xs: seq<T>, key: T -> nat, k: nat)
    requires forall i :: 0 <= i < |xs| ==> key(xs[i]) > k
    ensures WithKey(xs, key, k) == []
    decreases |xs|
  {
    if |xs| > 0 {
      WithKeyAbsent(xs[1..], key, k);
    }
  }

  /** Puts `x` into sorted `s` after every element whose key is not larger. */
  function Insert<T>(x: T, s: seq<T>, key: T -> nat): (r: seq<T>)
    requires SortedBy(s, key)
    ensures SortedBy(r, key)
    ensures |r| == |s| + 1
    ensures key(r[0]) == if |s| > 0 && key(s[0]) <= key(x) then key(s[0]) else key(x)
    decreases |s|
  {
    if |s| == 0 then [x]
    else if key(x) < key(s[0]) then [x] + s
    else
      var rest := Insert(x, s[1..], key);
      assert s == [s[0]] + s[1..];
      assert key(s[0]) <= key(rest[0]);
      [s[0]] + rest
  }

  /** Inserting adds exactly `x`: the result is a permutation of `s` and `x`. */
  lemma {:induction false} InsertPermutes<T>(x: T, s: seq<T>, key: T -> nat)
    requires SortedBy(s, key)
    ensures multiset(Insert(x, s, key)) == multiset(s) + multiset{x}
    decreases |s|
  {
    if |s| > 0 && key(x) >= key(s[0]) {
      InsertPermutes(x, s[1..], key);
      assert s == [s[0]] + s[1..];
    }
  }

  /** The elements with key `k` of a sequence that starts with `y`. */
  lemma WithKeyCons<T>(y: T, ys: seq<T>, key: T -> nat, k: nat)
    ensures WithKey([y] + ys, key, k) == (if key(y) == k then [y] else []) + WithKey(ys, key, k)
  {
    assert ([y] + ys)[1..] == ys;
  }

  /** Putting `y` in front of two runs whose key-`k` elements differ by a
      trailing `extra` keeps them differing by `extra`. */
  lemma WithKeyConsBoth<T>(y: T, ys: seq<T>, zs: seq<T>, extra: seq<T>, key: T -> nat, k: nat)
    requires WithKey(zs, key, k) == WithKey(ys, key, k) + extra
    ensures WithKey([y] + zs, key, k) == WithKey([y] + ys, key, k) + extra
  {
    var hy := if key(y) == k then [y] else [];
    WithKeyCons(y, zs, key, k);
    WithKeyCons(y, ys, key, k);
    AppendAssoc(hy, WithKey(ys, key, k), extra);
  }

  /** An element whose key is below every key of `s` goes in front, and it is
      the only one of its key. */
  lemma InsertFrontStable<T>(x: T, s: seq<T>, key: T -> nat, k: nat)
    requires SortedBy(s, key) && |s| > 0 && key(x) < key(s[0])
    ensures WithKey([x] + s, key, k) == WithKey(s, key, k) + (if key(x) == k then [x] else [])
  {
    WithKeyCons(x, s, key, k);
    if key(x) == k {
      WithKeyAbsent(s, key, k);
    }
  }

  /** Inserting places `x` after the elements of `s` that share its key. */
  lemma {:induction false} InsertStable<T>(x: T, s: seq<T>, key: T -> nat, k: nat)
    requires SortedBy(s, key)
    ensures WithKey(Insert(x, s, key), key, k) == WithKey(s, key, k) + (if key(x) == k then [x] else [])
    decreases |s|
  {
    if |s| == 0 {
      WithKeyCons(x, [], key, k);
    } else if key(x) < key(s[0]) {
      InsertFrontStable(x, s, key, k);
    } else {
      var tail := s[1..];
      InsertStable(x, tail, key, k);
      WithKeyConsBoth(s[0], tail, Insert(x, tail, key), if key(x) == k then [x] else [], key, k);
      assert s == [s[0]] + tail;
    }
  }

  /** Insertion sort: stable, as Python's sort is. */
  function SortBy<T>(xs: seq<T>, key: T -> nat): (r: seq<T>)
    ensures SortedBy(r, key)
    ensures multiset(r) == multiset(xs)
    ensures StableFor(xs, r, key)
    decreases |xs|
  {
    if |xs| == 0 then []
    else
      var init := xs[..|xs| - 1];
      var last := xs[|xs| - 1];
      var sorted := SortBy(init, key);
      assert xs == init + [last];
      SortStep(init, last, sorted, key);
      InsertPermutes(last, sorted, key);
      Insert(last, sorted, key)
  }

  /** Inserting the last element into the sorted rest keeps the sort stable. */
  lemma SortStep<T>(init: seq<T>, last: T, sorted: seq<T>, key: T -> nat)
    requires SortedBy(sorted, key) && StableFor(init, sorted, key)
    ensures StableFor(init + [last], Insert(last, sorted, key), key)
  {
    forall k: nat ensures WithKey(init + [last], key, k) == WithKey(Insert(last, sorted, key), key, k) {
      WithKeyAppend(init, [last], key, k);
      InsertStable(last, sorted, key, k);
    }
  }
}

=== FILE: text.dfy ===
/** Character-level helpers shared by the log format and the file-name policy:
    Python's `str.strip`, `str.split`, the line iteration of a text file and
    decimal numerals. */
module Text {

  /** The characters for which Python's `str.isspace` holds, hence the ones
      `str.strip` removes from both ends of a line. */
  predicate IsSpace(c: char) {
    c in {' ', '\t', '\n', '\U{0B}', '\U{0C}', '\r', '\U{1C}', '\U{1D}', '\U{1E}', '\U{1F}',
          '\U{85}', '\U{A0}', '\U{1680}', '\U{2000}', '\U{2001}', '\U{2002}', '\U{2003}',
          '\U{2004}', '\U{2005}', '\U{2006}', '\U{2007}', '\U{2008}', '\U{2009}', '\U{200A}',
          '\U{2028}', '\U{2029}', '\U{202F}', '\U{205F}', '\U{3000}'}
  }

  /** Characters that end a line when a text file is iterated in Python's
      universal-newline mode. */
  const LineBreaks: set<char> := {'\n', '\r'}

  /** The text is empty or its last line is terminated. */
  predicate LineComplete(s: string) {
    |s| == 0 || s[|s| - 1] in LineBreaks
  }

  /** Drops the leading white space of `s`: the result is the longest suffix of
      `s` that does not start with white space. */
  function TrimStart(s: string): (r: string)
    ensures |r| <= |s| && r == s[|s| - |r|..]
    ensures forall k :: 0 <= k < |s| - |r| ==> IsSpace(s[k])
    ensures |r| > 0 ==> !IsSpace(r[0])
    decreases |s|
  {
    if |s| > 0 && IsSpace(s[0]) then TrimStart(s[1..]) else s
  }

  /** Drops the trailing white space of `s`: the result is the longest prefix of
      `s` that does not end with white space. */
  function TrimEnd(s: string): (r: string)
    ensures |r| <= |s| && r == s[..|r|]
    ensures forall k :: |r| <= k < |s| ==> IsSpace(s[k])
    ensures |r| > 0 ==> !IsSpace(r[|r| - 1])
    decreases |s|
  {
    if |s| > 0 && IsSpace(s[|s| - 1]) then TrimEnd(s[..|s| - 1]) else s
  }

  /** Python's `str.strip()` with no argument. */
  function Strip(s: string): string {
    TrimEnd(TrimStart(s))
  }

  /** A line is blank when it holds nothing but white space. */
  predicate IsBlank(s: string) {
    forall k :: 0 <= k < |s| ==> IsSpace(s[k])
  }

  /** Stripping empties exactly the blank lines. */
  lemma StripEmptyIffBlank(s: string)
    ensures Strip(s) == [] <==> IsBlank(s)
  {
    var t := TrimStart(s);
    if !IsBlank(s) {
      var k :| 0 <= k < |s| && !IsSpace(s[k]);
      assert |t| > 0;
      assert !IsSpace(t[0]);
    }
  }

  /** A line that neither starts nor ends with white space is left as it is. */
  lemma StripKeepsTrimmed(s: string)
    requires |s| > 0 && !IsSpace(s[0]) && !IsSpace(s[|s| - 1])
    ensures Strip(s) == s
  {
  }

  /** No character of `s` is in `seps`. */
  predicate NoneIn(s: string, seps: set<char>) {
    forall k :: 0 <= k < |s| ==> s[k] !in seps
  }

  /** Text built from separator-free pieces is separator-free. */
  lemma NoneInConcat(a: string, b: string, seps: set<char>)
    requires NoneIn(a, seps) && NoneIn(b, seps)
    ensures NoneIn(a + b, seps)
  {
    forall k | 0 <= k < |a + b| ensures (a + b)[k] !in seps {
      if k >= |a| {
        assert (a + b)[k] == b[k - |a|];
      }
    }
  }

  /** The pieces of `s` between separators, as Python's `s.split(sep)` returns
      them for a single separator; with `LineBreaks` it yields the lines of a
      file without their terminators (plus an empty piece after a final
      terminator). */
  function Split(s: string, seps: set<char>): (fields: seq<string>)
    ensures |fields| >= 1
    decreases |s|
  {
    if |s| == 0 then [[]]
    else
      var rest := Split(s[1..], seps);
      if s[0] in seps then [[]] + rest
      else [[s[0]] + rest[0]] + rest[1..]
  }

  /** How many characters of `s` are separators. */
  function SeparatorCount(s: string, seps: set<char>): nat
    decreases |s|
  {
    if |s| == 0 then 0 else (if s[0] in seps then 1 else 0) + SeparatorCount(s[1..], seps)
  }

  /** No field holds a separator, and there is one field more than there are
      separators. */
  lemma {:induction false} SplitFieldsFree(s: string, seps: set<char>)
    ensures forall i :: 0 <= i < |Split(s, seps)| ==> NoneIn(Split(s, seps)[i], seps)
    ensures |Split(s, seps)| == SeparatorCount(s, seps) + 1
    decreases |s|
  {
    if |s| > 0 {
      SplitFieldsFree(s[1..], seps);
      assert s == [s[0]] + s[1..];
      var rest := Split(s[1..], seps);
      if s[0] !in seps {
        forall k | 0 <= k < |[s[0]] + rest[0]| ensures ([s[0]] + rest[0])[k] !in seps {
          if k > 0 {
            assert ([s[0]] + rest[0])[k] == rest[0][k - 1];
          }
        }
      }
    }
  }

  /** Splitting text that starts with `c`. */
  lemma SplitCons(c: char, t: string, seps: set<char>)
    ensures var rest := Split(t, seps);
      Split([c] + t, seps) == if c in seps then [[]] + rest else [[c] + rest[0]] + rest[1..]
  {
    assert ([c] + t)[1..] == t;
  }

  /** Python's `sep.join(fields)`. */
  function Join(fields: seq<string>, sep: char): string
    requires |fields| >= 1
    decreases |fields|
  {
    if |fields| == 1 then fields[0] else fields[0] + [sep] + Join(fields[1..], sep)
  }

  /** Joining puts the separator between the first field and the rest. */
  lemma JoinCons(field: string, fields: seq<string>, sep: char)
    requires |fields| >= 1
    ensures Join([field] + fields, sep) == field + [sep] + Join(fields, sep)
  {
    assert ([field] + fields)[1..] == fields;
  }

  /** A character glued to the first field lands at the front of the joined text. */
  lemma GlueJoin(c: char, fields: seq<string>, sep: char)
    requires |fields| >= 1
    ensures Join([[c] + fields[0]] + fields[1..], sep) == [c] + Join(fields, sep)
  {
    if |fields| > 1 {
      JoinCons([c] + fields[0], fields[1..], sep);
      JoinCons(fields[0], fields[1..], sep);
      assert [fields[0]] + fields[1..] == fields;
      assert ([c] + fields[0]) + [sep] + Join(fields[1..], sep)
          == [c] + (fields[0] + [sep] + Join(fields[1..], sep));
    }
  }

  /** Splitting at a single separator and joining back restores the text. */
  lemma {:induction false} JoinSplit(s: string, sep: char)
    ensures Join(Split(s, {sep}), sep) == s
    decreases |s|
  {
    if |s| > 0 {
      JoinSplit(s[1..], sep);
      var rest := Split(s[1..], {sep});
      if s[0] == sep {
        JoinCons([], rest, sep);
      } else {
        GlueJoin(s[0], rest, sep);
      }
      assert [s[0]] + s[1..] == s;
    }
  }

  /** Joining separator-free fields and splitting again gives the fields back. */
  lemma {:induction false} SplitJoin(fields: seq<string>, sep: char)
    requires |fields| >= 1
    requires forall i :: 0 <= i < |fields| ==> NoneIn(fields[i], {sep})
    ensures Split(Join(fields, sep), {sep}) == fields
    decreases |fields|
  {
    if |fields| == 1 {
      SplitNoSeparator(fields[0], {sep});
    } else {
      SplitJoin(fields[1..], sep);
      SplitAtSeparator(fields[0], sep, Join(fields[1..], sep), {sep});
      assert fields[0] + [sep] + Join(fields[1..], sep) == Join(fields, sep);
      assert [fields[0]] + fields[1..] == fields;
    }
  }

  /** Text without separators is a single field. */
  lemma {:induction false} SplitNoSeparator(s: string, seps: set<char>)
    requires NoneIn(s, seps)
    ensures Split(s, seps) == [s]
    decreases |s|
  {
    if |s| > 0 {
      SplitNoSeparator(s[1..], seps);
      assert [s[0]] + s[1..] == s;
    }
  }

  /** Gluing a character to the first field of a run of fields commutes with
      appending more fields. */
  lemma GlueFirstField(c: char, fs: seq<string>, more: seq<string>)
    requires |fs| >= 1
    ensures var joined := fs + more;
      ([[c] + fs[0]] + fs[1..]) + more == [[c] + joined[0]] + joined[1..]
  {
    assert (fs + more)[1..] == fs[1..] + more;
  }

  /** Splitting at a separator splits the text on either side of it
      independently: the fields of `a`, then those of `b`. */
  lemma {:induction false} SplitAround(a: string, sep: char, b: string, seps: set<char>)
    requires sep in seps
    ensures Split(a + [sep] + b, seps) == Split(a, seps) + Split(b, seps)
    decreases |a|
  {
    if |a| == 0 {
      assert a + [sep] + b == [sep] + b;
      SplitCons(sep, b, seps);
    } else {
      var t := a[1..];
      assert a == [a[0]] + t;
      assert a + [sep] + b == [a[0]] + (t + [sep] + b);
      SplitAround(t, sep, b, seps);
      SplitCons(a[0], t + [sep] + b, seps);
      SplitCons(a[0], t, seps);
      if a[0] in seps {
        assert [[]] + (Split(t, seps) + Split(b, seps)) == ([[]] + Split(t, seps)) + Split(b, seps);
      } else {
        GlueFirstField(a[0], Split(t, seps), Split(b, seps));
      }
    }
  }

  /** A separator-free head followed by a separator is split off as the first field. */
  lemma SplitAtSeparator(head: string, sep: char, tail: string, seps: set<char>)
    requires NoneIn(head, seps) && sep in seps
    ensures Split(head + [sep] + tail, seps) == [head] + Split(tail, seps)
  {
    SplitAround(head, sep, tail, seps);
    SplitNoSeparator(head, seps);
  }

  /** Text that ends with a separator splits into its fields followed by an
      empty one, and contributes those fields, without the empty one,
      unchanged to any text that follows it. */
  lemma SplitAfterTerminated(a: string, b: string, seps: set<char>)
    requires |a| > 0 && a[|a| - 1] in seps
    ensures var fa := Split(a, seps);
      && |fa| >= 2
      && fa == fa[..|fa| - 1] + [[]]
      && Split(a + b, seps) == fa[..|fa| - 1] + Split(b, seps)
  {
    var init, sep := a[..|a| - 1], a[|a| - 1];
    assert a == init + [sep] + [];
    assert a + b == init + [sep] + b;
    SplitAround(init, sep, [], seps);
    SplitAround(init, sep, b, seps);
    var fa := Split(a, seps);
    assert fa[..|fa| - 1] == Split(init, seps);
  }

  /** The lines of a text as iterated by Python, terminators dropped. */
  function Lines(s: string): seq<string> {
    Split(s, LineBreaks)
  }

  /** The lines of a text that is empty or ends with a line break end with an
      empty piece, and text appended to it starts on a line of its own. */
  lemma LinesAfterTerminated(prior: string, text: string)
    requires LineComplete(prior)
    ensures var lp := Lines(prior);
      && lp == lp[..|lp| - 1] + [[]]
      && Lines(prior + text) == lp[..|lp| - 1] + Lines(text)
  {
    if |prior| == 0 {
      assert prior + text == text;
    } else {
      SplitAfterTerminated(prior, text, LineBreaks);
    }
  }

  // ---- decimal numerals ----

  predicate IsDigit(c: char) {
    '0' <= c <= '9'
  }

  predicate AllDigits(s: string) {
    forall k :: 0 <= k < |s| ==> IsDigit(s[k])
  }

  /** A numeral in canonical form: at least one digit and no leading zero. */
  predicate IsCanonicalNumeral(s: string) {
    |s| >= 1 && AllDigits(s) && (|s| > 1 ==> s[0] != '0')
  }

  function DigitChar(d: nat): (c: char)
    requires d < 10
    ensures IsDigit(c)
  {
    ['0', '1', '2', '3', '4', '5', '6', '7', '8', '9'][d]
  }

  function DigitValue(c: char): (d: nat)
    requires IsDigit(c)
    ensures d < 10 && DigitChar(d) == c
  {
    (c as int - '0' as int) as nat
  }

  /** Reading a digit character back gives its value. */
  lemma DigitValueOfChar(d: nat)
    requires d < 10
    ensures DigitValue(DigitChar(d)) == d
  {
  }

  /** The value of a string of digits, as Python's `int()` reads it. */
  function NumeralValue(s: string): nat
    requires AllDigits(s)
    decreases |s|
  {
    if |s| == 0 then 0 else NumeralValue(s[..|s| - 1]) * 10 + DigitValue(s[|s| - 1])
  }

  /** The canonical decimal numeral of `n`, as Python prints an integer. */
  function Numeral(n: nat): (s: string)
    ensures IsCanonicalNumeral(s)
    decreases n
  {
    if n < 10 then [DigitChar(n)] else Numeral(n / 10) + [DigitChar(n % 10)]
  }

  /** Reading back a printed number gives the number. */
  lemma {:induction false} NumeralRoundTrip(n: nat)
    ensures NumeralValue(Numeral(n)) == n
    decreases n
  {
    if n < 10 {
      DigitValueOfChar(n);
    } else {
      var s := Numeral(n);
      assert s[..|s| - 1] == Numeral(n / 10);
      NumeralRoundTrip(n / 10);
      DigitValueOfChar(n % 10);
      assert NumeralValue(s) == (n / 10) * 10 + n % 10;
    }
  }

  /** A numeral that starts with a non-zero digit has a positive value. */
  lemma {:induction false} LeadingDigitPositive(s: string)
    requires |s| >= 1 && AllDigits(s) && s[0] != '0'
    ensures NumeralValue(s) >= 1
    decreases |s|
  {
    if |s| > 1 {
      LeadingDigitPositive(s[..|s| - 1]);
    }
  }

  /** Printing the value of a canonical numeral gives the numeral back, so
      canonical numerals and numbers are in one-to-one correspondence. */
  lemma {:induction false} NumeralCanonical(s: string)
    requires IsCanonicalNumeral(s)
    ensures Numeral(NumeralValue(s)) == s
    decreases |s|
  {
    if |s| > 1 {
      var p := s[..|s| - 1];
      LeadingDigitPositive(p);
      NumeralCanonical(p);
      var n := NumeralValue(s);
      assert n / 10 == NumeralValue(p);
      assert n % 10 == DigitValue(s[|s| - 1]);
      assert p + [s[|s| - 1]] == s;
    }
  }
}

=== FILE: wrappers.dfy ===
/** Failure-carrying datatypes used across the model. */
module Wrappers {

  /** A value that may be absent. */
  datatype Option<+T> = None | Some(value: T)

  /** Either a value or the error that prevented computing it. */
  datatype Result<+T, +E> = Success(value: T) | Failure(error: E)

  /** The values present in `xs`, in order, the absent ones skipped. */
  function Values<T>(xs: seq<Option<T>>): (vs: seq<T>)
    ensures |vs| <= |xs|
    decreases |xs|
  {
    if |xs| == 0 then []
    else if xs[0].Some? then [xs[0].value] + Values(xs[1..])
    else Values(xs[1..])
  }

  /** Collecting values distributes over concatenation. */
  lemma {:induction false} ValuesAppend<T>(a: seq<Option<T>>, b: seq<Option<T>>)
    ensures Values(a + b) == Values(a) + Values(b)
    decreases |a|
  {
    if |a| == 0 {
      assert a + b == b;
    } else {
      var head := if a[0].Some? then [a[0].value] else [];
      assert (a + b)[1..] == a[1..] + b;
      assert Values(a + b) == head + Values(a[1..] + b);
      ValuesAppend(a[1..], b);
      assert head + (Values(a[1..]) + Values(b)) == (head + Values(a[1..])) + Values(b);
    }
  }

  /** Concatenation is associative. */
  lemma AppendAssoc<T>(a: seq<T>, b: seq<T>, c: seq<T>)
    ensures (a + b) + c == a + (b + c)
  {
  }

  /** Every collected value was present at some position. */
  lemma {:induction false} ValuesPresent<T>(xs: seq<Option<T>>, v: T)
    requires v in Values(xs)
    ensures exists i :: 0 <= i < |xs| && xs[i] == Some(v)
    decreases |xs|
  {
    if xs[0] != Some(v) {
      ValuesPresent(xs[1..], v);
      var i :| 0 <= i < |xs[1..]| && xs[1..][i] == Some(v);
      assert xs[i + 1] == Some(v);
    }
  }
}
